=== FILE: README.md ===
# Copy and move semantics of a byte-buffer `Vector`

This project models `class Vector` of `move_semantics/main.cpp`: an owner of
an `unsigned char` buffer, held as a pointer `mBuffer` and a length `mSize`.
It has six constructors and assignment operators: the default constructor, a constructor that
adopts a given buffer, the copy constructor and copy assignment (both
allocate a new buffer and copy into it), and the move constructor and move
assignment (both take over the source's pointer and null the source). The
model also covers the sequence of declarations and assignments in `main`.

The model has two layers.

- **Store layer** (`memory.dfy`, `vector_store.dfy`, `program.dfy`). Memory
  is an explicit map of blocks. Each block records its bytes, whether it is
  static storage or came from `new[]`, and whether `delete[]` has released
  it. The program's `Vector` objects are named variables. Every special
  member is a pure function from one state to the next. Behaviour that C++
  leaves undefined becomes a `Fault`: a null or wild pointer, use after
  free, out of bounds, double or invalid `delete[]`, or an overlapping
  `memcpy`. Object names matter because assignment acts on objects.
  `x = x` copies the new buffer onto itself. `x = y`, when `y` only shares
  `x`'s buffer, reads a released block.
- **Object layer** (`vector_object.dfy`). A Dafny class has a nullable
  `array<bv8>` buffer and a `nat` size. Its `fresh`, `modifies` and
  reference-equality clauses state which operations allocate and which
  hand over the existing array. A ghost `HeapLog` records which arrays `new[]`
  returned and which `delete[]` released.

Object names in the store layer are strings. `new[]` hands out block
identities in increasing order. A zero-length `memcpy` touches no byte and
never faults, even from a null pointer. This matches copying a
default-constructed vector, where the source code calls
`memcpy(p, nullptr, 0)`. `new unsigned char[n]` leaves its bytes
indeterminate. The model fills the new block with zeros, and every
operation overwrites all of them before any read.

## Model

| member | source | states |
|---|---|---|
| Memory.Alloc | move_semantics/main.cpp:18 | `new Type[mSize]` returns a block that did not exist before. The block is live, may be passed to `delete[]`, and has exactly `mSize` bytes. Every existing block is unchanged. |
| Memory.Read | move_semantics/main.cpp:19 | Reading `n` bytes at a pointer succeeds exactly when `n` is 0 or the bytes lie inside a live block. It then returns exactly those `n` bytes. A failure is a null, wild, use-after-free or out-of-bounds fault. |
| Memory.Write | move_semantics/main.cpp:19 | Writing succeeds exactly when the destination bytes lie inside a live block. Reading them back returns the data written. The rest of that block's bytes and every other block are unchanged, and the block keeps its length and status. |
| Memory.Free | move_semantics/main.cpp:27 | `delete[]` succeeds exactly when the block came from `new[]` and is still live. Releasing a block twice is a double free. On success only that block changes: it is marked released and keeps its bytes. |
| Memory.ReleasedStaysReleased | move_semantics/main.cpp:27 | After `delete[] p`, reading through `p` is a use after free and a second `delete[] p` is a double free. |
| Memory.Memcpy | move_semantics/main.cpp:29 | `memcpy` succeeds exactly when `n` is 0, or the two buffers are distinct and both accessible. Afterwards the destination holds the source's former bytes. Destination bytes past `n` and every other block are unchanged. Overlapping source and destination is a fault. |
| VectorStore.DeclareDefault | move_semantics/main.cpp:9 | A default-constructed vector has a null buffer and no contents. Memory and the other objects are unchanged. |
| VectorStore.DeclareAdopting | move_semantics/main.cpp:10 | The buffer-adopting constructor keeps exactly the given pointer and size, whatever they are. Memory is unchanged: nothing is allocated or copied. The state stays well formed exactly when the pointer is null or refers to a block the program obtained. |
| VectorStore.DeclareCopy | move_semantics/main.cpp:14-20 | Copy construction succeeds exactly when the source's bytes can be read. The new object then has the source's size and a newly allocated buffer of its own with the same bytes. That buffer is exactly the source's size and is the only block added. The source, the other objects and all existing blocks are unchanged. |
| VectorStore.CopyAssign | move_semantics/main.cpp:23-31 | When the two objects are distinct and do not share a buffer (two null buffers count as not shared), copy assignment succeeds exactly when the target's old buffer is null or can be released, and the source can be read. The target then has the source's size and a new buffer with the source's bytes. That buffer is exactly the source's size and is the only block added. The old buffer, if there was one, is released and nothing else changes. |
| VectorStore.CopyAssignToSelf | move_semantics/main.cpp:26-29 | With no self-assignment guard, `x = x` on a vector whose buffer is null or a live block from `new[]` behaves as follows. If the size is not 0, it copies the new buffer onto itself, which is an overlapping `memcpy`. If the size is 0, the vector gets a new zero-length buffer of its own. |
| VectorStore.CopyAssignShared | move_semantics/main.cpp:27-29 | When two distinct objects share one live buffer from `new[]` and the source's size is not 0, copy-assigning one from the other releases that buffer and then reads from it: a use after free. |
| VectorStore.CopyDoesNotAlias | move_semantics/main.cpp:14-31 | After a successful copy construction or copy assignment, no other object holds the target's buffer. |
| VectorStore.DeclareMove | move_semantics/main.cpp:45-53 | The move constructor hands over the source's pointer and size unchanged, so the bytes reachable through the target are the ones that were reachable through the source. The source is left empty. Memory is unchanged. |
| VectorStore.MoveAssign | move_semantics/main.cpp:56-65 | Move assignment performs the same transfer and empties the source, without touching memory. `x = std::move(x)` leaves `x` empty. |
| VectorStore.MoveAssignDrops | move_semantics/main.cpp:59-60 | The target's previous buffer is overwritten, not released. If the target was its only holder, nothing refers to that buffer afterwards, and its block is left as it was, still unreleased. |
| VectorStore.MoveRoundTrip | move_semantics/main.cpp:93-94 | `Vector m = std::move(d); d = std::move(m);` restores `d`'s pointer and size, leaves `m` empty and changes no memory. |
| Program.Run | move_semantics/main.cpp:88-94 | A sequence of declarations and assignments, stopping at the first fault, keeps every object's buffer null or a block the program obtained. |
| Program.RunKeepsExclusive | move_semantics/main.cpp:14-65 | Without adopting outside buffers, copies and moves never make two objects share a buffer. So the shared-buffer fault of copy assignment cannot arise. |
| Program.MovesKeepMemory | move_semantics/main.cpp:45-65 | Any run of moves alone does not allocate, release or write memory. |
| Program.MainScenario | move_semantics/main.cpp:87-94 | `main` has no undefined behaviour. `a` adopts `sArr`. `b`, `c` and `d` each end with a separate new buffer holding `sArr`'s 123 zero bytes; `d`'s is the buffer its copy assignment allocated. `m` ends empty, no block is released and no two objects share a buffer. |
| VectorObject.Vector.Default | move_semantics/main.cpp:9 | The default constructor leaves a null buffer and size 0. |
| VectorObject.Vector.Adopt | move_semantics/main.cpp:10 | The two-argument constructor keeps the very array reference and size it is given. It allocates and copies nothing. |
| VectorObject.Vector.CopyOf | move_semantics/main.cpp:14-20 | Copy construction gives the source's size and a fresh array of exactly that length, equal element by element to the source's bytes. The log records the array as returned by `new[]` and releases nothing. The source is unchanged. |
| VectorObject.Vector.CopyAssign | move_semantics/main.cpp:23-31 | For a distinct, readable source whose non-empty buffer is not the target's, and a target whose old array, if any, came from `new[]` and is still live, the target gets the source's size and a fresh array equal to the source's bytes. The old array is logged as released exactly when it was non-null, and the source is unchanged. |
| VectorObject.Vector.MoveFrom | move_semantics/main.cpp:45-53 | The move constructor takes the source's very array reference and size without allocating. The source is left with a null buffer and size 0. |
| VectorObject.Vector.MoveAssign | move_semantics/main.cpp:56-65 | Move assignment into a distinct target hands over the source's array reference and size, and the source is left null and 0. The previous array is returned as dropped and is not logged as released. Moving an object into itself leaves it empty. |
| VectorObject.CopyBytes | move_semantics/main.cpp:19 | `memcpy` between two distinct arrays sets the first `n` destination bytes to the source's and leaves the rest of the destination alone. |
| VectorObject.MainSequence | move_semantics/main.cpp:87-94 | On Dafny's heap, `a` holds `sArr` itself, while `b`, `c` and `d` hold three distinct, newly allocated arrays equal to `sArr` and different from it. `m` ends empty. |

## Left out

- Console output: the `cout` line in every special member (lines 16, 25, 47, 58) only narrates which member runs.
- `PrintInt` and `std::move` (lines 72-84): these show compile-time overload resolution and a cast, with no run-time state.
- The destructor, which is commented out (line 11). Nothing is ever freed except by copy assignment's `delete[]`. This is why a dropped buffer stays unreleased in the model.
- Allocation failure: `new[]` throwing `std::bad_alloc` is not modelled. Allocation always succeeds.
- `size_t` width: sizes are unbounded naturals. No size in the source is computed, only copied, so no wrap-around can arise.
- The `Vector&` returned by both assignment operators (lines 30, 64): `main` never chains assignments.
- Program.Step: adopting a pointer that designates no block the program obtained is reported as `WildPointer` at the declaration. In C++ only a later access through such a pointer is undefined. The model rejects it early because block identities not yet handed out must stay free for `new[]`, and `Run` keeps every buffer null or obtained.
- Pointer arithmetic: a pointer is null or the start of a block. So an adopted interior pointer such as `Vector v(sArr + 10, 5)`, or two vectors over overlapping ranges, cannot be expressed.
- `memcpy` of length 0 from a null, dangling or wild pointer: the C standard calls this undefined, but the model treats it as copying nothing.
- shared_ptr/main.cpp, unique_ptr/main.cpp, static_polymorphism/main.cpp and unused_object_stripping/main.cpp. They exercise standard-library smart pointers, compile-time dispatch and linker section stripping. None of that is code of this repository with run-time state.

=== FILE: memory.dfy ===
/**
 A byte-addressed store of blocks, just detailed enough to say what the
 `Vector` operations do to memory: `new unsigned char[n]`, `delete[]` and
 `memcpy`. Every access that C++ leaves undefined is reported as a `Fault`
 instead of being given a meaning.
 */
module Memory {
  import opened Results

  /** `unsigned char`, the element type of every buffer. */
  type Byte = bv8

  /** An `unsigned char*`: null, or the first byte of the block `id`. */
  datatype Ptr = Null | Addr(id: nat)

  /** Static storage (such as a `static` array) or a block from `new[]`;
      only the latter may be handed to `delete[]`. */
  datatype Origin = Static | Heap

  /** A block and whether `delete[]` has already released it. */
  datatype Block = Block(bytes: seq<Byte>, origin: Origin, released: bool)

  /** The undefined behaviours the model detects, plus two naming errors: a
      statement about an object that is not (yet) declared, and a second
      declaration of a name. Most such programs do not compile; `Vector x(x);`
      does, and reads `x`'s uninitialised `mSize`, which the model reports as
      `UnknownName`. */
  datatype Fault =
    | NullAccess       // a byte accessed through a null pointer
    | WildPointer      // a pointer to no block the program ever obtained
    | UseAfterFree     // a byte of a block already released
    | OutOfBounds      // a byte past the end of its block
    | DoubleFree       // `delete[]` of a block already released
    | InvalidFree      // `delete[]` of a block that `new[]` did not return
    | OverlappingCopy  // `memcpy` whose source and destination overlap
    | UnknownName      // a variable used before its declaration
    | NameInUse        // a variable declared twice

  /** All blocks ever obtained, and the identity the next `new[]` returns. */
  datatype Mem = Mem(blocks: map<nat, Block>, next: nat)

  /** Identities below `next` are the only ones handed out so far. */
  predicate Valid(m: Mem) {
    forall id :: id in m.blocks ==> id < m.next
  }

  /** `p` is null or designates a block the program has obtained. */
  predicate PointsInto(m: Mem, p: Ptr) {
    p.Null? || p.id in m.blocks
  }

  /** The first `n` bytes at `p` exist and have not been released. */
  predicate Accessible(m: Mem, p: Ptr, n: nat) {
    && p.Addr?
    && p.id in m.blocks
    && !m.blocks[p.id].released
    && n <= |m.blocks[p.id].bytes|
  }

  /** `p` may be passed to `delete[]`: a live block that `new[]` returned. */
  predicate Releasable(m: Mem, p: Ptr) {
    && p.Addr?
    && p.id in m.blocks
    && m.blocks[p.id].origin == Heap
    && !m.blocks[p.id].released
  }

  /** Every block outside `ids` is still there, unchanged. */
  predicate SameOutside(m: Mem, m': Mem, ids: set<nat>) {
    forall id :: id in m.blocks && id !in ids ==> id in m'.blocks && m'.blocks[id] == m.blocks[id]
  }

  /** Why touching `n > 0` bytes at `p` is undefined. */
  function AccessFault(m: Mem, p: Ptr, n: nat): (f: Fault)
    requires !Accessible(m, p, n)
    ensures f in {NullAccess, WildPointer, UseAfterFree, OutOfBounds}
    ensures f == NullAccess <==> p.Null?
  {
    if p.Null? then NullAccess
    else if p.id !in m.blocks then WildPointer
    else if m.blocks[p.id].released then UseAfterFree
    else OutOfBounds
  }

  /** `new unsigned char[n]`: a fresh, live heap block of `n` bytes. The C++
      contents are indeterminate; the model fills zeros, and every caller
      overwrites all `n` bytes before reading them. */
  function Alloc(m: Mem, n: nat): (r: (Mem, Ptr))
    requires Valid(m)
    ensures Valid(r.0)
    ensures r.1.Addr? && r.1.id !in m.blocks && r.1.id in r.0.blocks
    ensures |r.0.blocks[r.1.id].bytes| == n && Releasable(r.0, r.1)
    ensures r.0.blocks.Keys == m.blocks.Keys + {r.1.id}
    ensures SameOutside(m, r.0, {})
  {
    (Mem(m.blocks[m.next := Block(seq(n, _ => 0), Heap, false)], m.next + 1), Addr(m.next))
  }

  /** Reading the first `n` bytes at `p`; reading nothing never faults. */
  function Read(m: Mem, p: Ptr, n: nat): (r: Result<seq<Byte>, Fault>)
    ensures r.Ok? <==> n == 0 || Accessible(m, p, n)
    ensures r.Ok? ==> |r.value| == n
    ensures r.Ok? && n > 0 ==> r.value == m.blocks[p.id].bytes[..n]
    ensures r.Err? ==> r.error in {NullAccess, WildPointer, UseAfterFree, OutOfBounds}
  {
    if n == 0 then Ok([])
    else if !Accessible(m, p, n) then Err(AccessFault(m, p, n))
    else Ok(m.blocks[p.id].bytes[..n])
  }

  /** Overwriting the first `|data|` bytes at `p`; writing nothing never faults. */
  function Write(m: Mem, p: Ptr, data: seq<Byte>): (r: Result<Mem, Fault>)
    ensures r.Ok? <==> |data| == 0 || Accessible(m, p, |data|)
    ensures r.Ok? ==> Read(r.value, p, |data|) == Ok(data)
    ensures r.Ok? ==> r.value.next == m.next && r.value.blocks.Keys == m.blocks.Keys
    ensures r.Ok? && p.Addr? ==> SameOutside(m, r.value, {p.id})
    ensures r.Ok? && p.Null? ==> r.value == m
    ensures r.Ok? && p.Addr? && p.id in m.blocks ==>
      var (b, b') := (m.blocks[p.id], r.value.blocks[p.id]);
      |b'.bytes| == |b.bytes| && b'.origin == b.origin && b'.released == b.released
    ensures r.Ok? && p.Addr? && p.id in m.blocks && |data| <= |m.blocks[p.id].bytes| ==>
      r.value.blocks[p.id].bytes[|data|..] == m.blocks[p.id].bytes[|data|..]
  {
    if |data| == 0 then Ok(m)
    else if !Accessible(m, p, |data|) then Err(AccessFault(m, p, |data|))
    else
      var b := m.blocks[p.id];
      Ok(m.(blocks := m.blocks[p.id := b.(bytes := data + b.bytes[|data|..])]))
  }

  /** `delete[] p` on a non-null `p`: marks the block released, keeping its
      bytes so that a later access can be recognised as a use after free. */
  function Free(m: Mem, p: Ptr): (r: Result<Mem, Fault>)
    requires p.Addr?
    ensures r.Ok? <==> Releasable(m, p)
    ensures r.Err? && p.id in m.blocks && m.blocks[p.id].released ==> r.error == DoubleFree
    ensures r.Ok? ==> r.value.next == m.next && r.value.blocks.Keys == m.blocks.Keys
    ensures r.Ok? ==> SameOutside(m, r.value, {p.id})
    ensures r.Ok? ==> r.value.blocks[p.id] == m.blocks[p.id].(released := true)
  {
    if p.id !in m.blocks then Err(WildPointer)
    else if m.blocks[p.id].released then Err(DoubleFree)
    else if m.blocks[p.id].origin != Heap then Err(InvalidFree)
    else Ok(m.(blocks := m.blocks[p.id := m.blocks[p.id].(released := true)]))
  }

  /** `memcpy(dst, src, n)` where both pointers are block starts, so they
      overlap exactly when they are equal. */
  function Memcpy(m: Mem, dst: Ptr, src: Ptr, n: nat): (r: Result<Mem, Fault>)
    ensures r.Ok? <==> n == 0 || (dst != src && Accessible(m, src, n) && Accessible(m, dst, n))
    ensures r.Ok? ==> Read(r.value, dst, n) == Read(m, src, n)
    ensures r.Ok? ==> r.value.next == m.next && r.value.blocks.Keys == m.blocks.Keys
    ensures r.Ok? && dst.Addr? ==> SameOutside(m, r.value, {dst.id})
    ensures r.Ok? && dst.Null? ==> r.value == m
    ensures r.Ok? && dst.Addr? && dst.id in m.blocks && n <= |m.blocks[dst.id].bytes| ==>
      |r.value.blocks[dst.id].bytes| == |m.blocks[dst.id].bytes|
      && r.value.blocks[dst.id].bytes[n..] == m.blocks[dst.id].bytes[n..]
    ensures n > 0 && dst.Addr? && dst == src ==> r == Err(OverlappingCopy)
  {
    if n > 0 && dst.Addr? && dst == src then Err(OverlappingCopy)
    else
      var data :- Read(m, src, n);
      Write(m, dst, data)
  }

  /** After `delete[] p`, reading any byte at `p` is a use after free and a
      second `delete[] p` is a double free. */
  lemma ReleasedStaysReleased(m: Mem, p: Ptr, n: nat)
    requires p.Addr? && Free(m, p).Ok? && n > 0
    ensures Read(Free(m, p).value, p, n) == Err(UseAfterFree)
    ensures Free(Free(m, p).value, p) == Err(DoubleFree)
  {
  }

  /** A read sees only the block it reads from: changes to other blocks do
      not affect it. */
  lemma ReadFrame(m: Mem, m': Mem, ids: set<nat>, p: Ptr, n: nat)
    requires SameOutside(m, m', ids)
    ensures (p.Addr? ==> p.id !in ids) && Read(m, p, n).Ok? ==> Read(m', p, n) == Read(m, p, n)
  {
  }
}

=== FILE: program.dfy ===
/**
 Straight-line programs over `Vector` objects, and the sequence that `main`
 in move_semantics/main.cpp runs (lines 87-94).
 */
module Program {
  import opened Results
  import opened Memory
  import opened VectorStore

  /** One declaration or assignment involving `Vector` objects. */
  datatype Stmt =
    | Default(x: Name)                 // Vector x;
    | Adopt(x: Name, p: Ptr, n: nat)   // Vector x(p, n);
    | CopyInit(x: Name, y: Name)       // Vector x = y;  or  Vector x(y);
    | CopyAssignStmt(x: Name, y: Name) // x = y;
    | MoveInit(x: Name, y: Name)       // Vector x = std::move(y);
    | MoveAssignStmt(x: Name, y: Name) // x = std::move(y);

  predicate IsMove(st: Stmt) {
    st.MoveInit? || st.MoveAssignStmt?
  }

  /** No two variables hold the same buffer: each block has one owner. */
  predicate Exclusive(s: State) {
    forall x, y :: x in s.vars && y in s.vars && x != y && s.vars[x].buffer.Addr? ==>
      s.vars[x].buffer != s.vars[y].buffer
  }

  /** One statement. Adopting a pointer that designates no block the program
      obtained is reported as a wild pointer at once. C++ accepts such a
      declaration and only a later access is undefined, but identities that
      `new[]` has not yet handed out must stay free for it. */
  function Step(s: State, st: Stmt): (r: Result<State, Fault>)
    requires WellFormed(s)
    ensures r.Ok? ==> WellFormed(r.value)
  {
    match st
    case Default(x) => DeclareDefault(s, x)
    case Adopt(x, p, n) => if PointsInto(s.mem, p) then DeclareAdopting(s, x, p, n) else Err(WildPointer)
    case CopyInit(x, y) => DeclareCopy(s, x, y)
    case CopyAssignStmt(x, y) => CopyAssign(s, x, y)
    case MoveInit(x, y) => DeclareMove(s, x, y)
    case MoveAssignStmt(x, y) => MoveAssign(s, x, y)
  }

  /** The statements in order, stopping at the first fault. */
  function Run(s: State, prog: seq<Stmt>): (r: Result<State, Fault>)
    requires WellFormed(s)
    ensures r.Ok? ==> WellFormed(r.value)
    decreases |prog|
  {
    if |prog| == 0 then Ok(s)
    else
      var s1 :- Step(s, prog[0]);
      Run(s1, prog[1..])
  }

  /** Every statement other than adopting keeps ownership exclusive. */
  lemma StepKeepsExclusive(s: State, st: Stmt)
    requires WellFormed(s) && Exclusive(s) && !st.Adopt?
    ensures Step(s, st).Ok? ==> Exclusive(Step(s, st).value)
  {
    match st
    case Default(x) =>
    case CopyInit(x, y) =>
    case CopyAssignStmt(x, y) =>
    case MoveInit(x, y) =>
    case MoveAssignStmt(x, y) =>
  }

  /** A program that adopts no outside buffer never makes two vectors share
      one, so the copy assignment fault of `CopyAssignShared` cannot arise. */
  lemma {:induction false} RunKeepsExclusive(s: State, prog: seq<Stmt>)
    requires WellFormed(s) && Exclusive(s)
    requires forall i :: 0 <= i < |prog| ==> !prog[i].Adopt?
    ensures Run(s, prog).Ok? ==> Exclusive(Run(s, prog).value)
    decreases |prog|
  {
    if |prog| > 0 {
      StepKeepsExclusive(s, prog[0]);
      var r := Step(s, prog[0]);
      if r.Ok? {
        RunKeepsExclusive(r.value, prog[1..]);
      }
    }
  }

  /** Moves alone neither allocate, release nor write: memory is untouched. */
  lemma {:induction false} MovesKeepMemory(s: State, prog: seq<Stmt>)
    requires WellFormed(s)
    requires forall i :: 0 <= i < |prog| ==> IsMove(prog[i])
    ensures Run(s, prog).Ok? ==> Run(s, prog).value.mem == s.mem
    decreases |prog|
  {
    if |prog| > 0 {
      var r := Step(s, prog[0]);
      if r.Ok? {
        MovesKeepMemory(r.value, prog[1..]);
      }
    }
  }

  /** `static Type sArr[123];` is zero-initialised static storage. */
  const StaticArray: Ptr := Addr(0)

  const Zeros: seq<Byte> := seq(123, _ => 0)

  /** Before `main`'s vectors exist: only `sArr`. */
  const Start: State := State(Mem(map[0 := Block(Zeros, Static, false)], 1), map[])

  /** Lines 88-94 of `main`. */
  const MainStmts: seq<Stmt> := [
    Adopt("a", StaticArray, 123),   // Vector a(sArr, sizeof(sArr)/sizeof(Type));
    CopyInit("b", "a"),             // Vector b = a;
    CopyInit("c", "b"),             // Vector c(b);
    Default("d"),                   // Vector d;
    CopyAssignStmt("d", "a"),       // d = a;
    MoveInit("m", "d"),             // Vector m = std::move(d);
    MoveAssignStmt("d", "m")        // d = std::move(m);
  ]

  /* The states `main` passes through, one per statement. */
  const Sarr: Block := Block(Zeros, Static, false)
  const Copy: Block := Block(Zeros, Heap, false)
  const S1: State := State(Start.mem, map["a" := Vector(StaticArray, 123)])
  const S2: State := State(Mem(map[0 := Sarr, 1 := Copy], 2), S1.vars["b" := Vector(Addr(1), 123)])
  const S3: State := State(Mem(map[0 := Sarr, 1 := Copy, 2 := Copy], 3), S2.vars["c" := Vector(Addr(2), 123)])
  const S4: State := State(S3.mem, S3.vars["d" := Empty])
  const S5: State := State(Mem(map[0 := Sarr, 1 := Copy, 2 := Copy, 3 := Copy], 4), S4.vars["d" := Vector(Addr(3), 123)])
  const S6: State := State(S5.mem, S5.vars["m" := Vector(Addr(3), 123)]["d" := Empty])
  const S7: State := State(S5.mem, S6.vars["d" := Vector(Addr(3), 123)]["m" := Empty])

  /** Copying `sArr`'s bytes into a fresh block yields the block `Copy`. */
  lemma CopyOfZeros(m: Mem, src: Ptr)
    requires Memory.Valid(m) && Accessible(m, src, 123) && m.blocks[src.id].bytes == Zeros
    ensures var (m1, p) := Alloc(m, 123);
      Memcpy(m1, p, src, 123) == Ok(Mem(m.blocks[m.next := Copy], m.next + 1))
  {
    var (m1, p) := Alloc(m, 123);
    assert m1.blocks[p.id].bytes == Zeros;
    var data := Read(m1, src, 123).value;
    assert data == Zeros;
    assert Zeros + Zeros[123..] == Zeros;
    var b := m1.blocks[p.id];
    assert b.(bytes := data + b.bytes[123..]) == Copy;
    assert Write(m1, p, data) == Ok(m1.(blocks := m1.blocks[p.id := Copy]));
    assert m1.blocks[p.id := Copy] == m.blocks[m.next := Copy];
  }

  lemma MainStep1() ensures WellFormed(Start) && Step(Start, MainStmts[0]) == Ok(S1) { }

  lemma MainStep2() ensures WellFormed(S1) && Step(S1, MainStmts[1]) == Ok(S2) {
    CopyOfZeros(S1.mem, StaticArray);
    assert S1.mem.blocks[1 := Copy] == S2.mem.blocks;
  }

  lemma MainStep3() ensures WellFormed(S2) && Step(S2, MainStmts[2]) == Ok(S3) {
    CopyOfZeros(S2.mem, Addr(1));
    assert S2.mem.blocks[2 := Copy] == S3.mem.blocks;
  }

  lemma MainStep4() ensures WellFormed(S3) && Step(S3, MainStmts[3]) == Ok(S4) { }

  lemma MainStep5() ensures WellFormed(S4) && Step(S4, MainStmts[4]) == Ok(S5) {
    CopyOfZeros(S4.mem, StaticArray);
    assert S4.mem.blocks[3 := Copy] == S5.mem.blocks;
  }

  lemma MainStep6() ensures WellFormed(S5) && Step(S5, MainStmts[5]) == Ok(S6) { }

  lemma MainStep7() ensures WellFormed(S6) && Step(S6, MainStmts[6]) == Ok(S7) { }

  /** `main` runs without undefined behaviour: `a` adopts `sArr`; `b`, `c`
      and `d` each end with their own fresh copy of its 123 bytes, `d`
      holding the buffer its copy assignment allocated after the round trip
      through `m`, which is left empty; nothing is released. */
  lemma MainScenario()
    ensures WellFormed(Start)
    ensures var r := Run(Start, MainStmts);
      && r.Ok?
      && r.value.vars.Keys == {"a", "b", "c", "d", "m"}
      && r.value.vars["a"] == Vector(StaticArray, 123)
      && r.value.vars["b"] == Vector(Addr(1), 123)
      && r.value.vars["c"] == Vector(Addr(2), 123)
      && r.value.vars["d"] == Vector(Addr(3), 123)
      && r.value.vars["m"] == Empty
      && (forall x :: x in r.value.vars && x != "m" ==> Contents(r.value.mem, r.value.vars[x]) == Ok(Zeros))
      && (forall id :: id in r.value.mem.blocks ==> !r.value.mem.blocks[id].released)
      && Exclusive(r.value)
  {
    MainRunsThrough();
    FinalObjects();
    FinalContents();
    FinalExclusive();
  }

  lemma FinalObjects()
    ensures S7.vars.Keys == {"a", "b", "c", "d", "m"}
    ensures S7.vars["a"] == Vector(StaticArray, 123) && S7.vars["b"] == Vector(Addr(1), 123)
    ensures S7.vars["c"] == Vector(Addr(2), 123) && S7.vars["d"] == Vector(Addr(3), 123)
    ensures S7.vars["m"] == Empty
    ensures forall id :: id in S7.mem.blocks ==> !S7.mem.blocks[id].released
  {
    assert S7.mem.blocks.Keys == {0, 1, 2, 3};
  }

  lemma MainRunsThrough()
    ensures WellFormed(Start) && Run(Start, MainStmts) == Ok(S7)
  {
    MainStep1(); MainStep2(); MainStep3(); MainStep4(); MainStep5(); MainStep6(); MainStep7();
    var prog := MainStmts;
    RunUnfold(S6, prog[6..]);
    RunUnfold(S5, prog[5..]);
    RunUnfold(S4, prog[4..]);
    RunUnfold(S3, prog[3..]);
    RunUnfold(S2, prog[2..]);
    RunUnfold(S1, prog[1..]);
    RunUnfold(Start, prog);
  }

  /** One step of `Run`, stated so that the chain above stays small. */
  lemma RunUnfold(s: State, prog: seq<Stmt>)
    requires WellFormed(s) && |prog| > 0
    ensures Step(s, prog[0]).Err? ==> Run(s, prog) == Err(Step(s, prog[0]).error)
    ensures Step(s, prog[0]).Ok? ==> Run(s, prog) == Run(Step(s, prog[0]).value, prog[1..])
  {
  }

  lemma FinalContents()
    ensures forall x :: x in S7.vars && x != "m" ==> Contents(S7.mem, S7.vars[x]) == Ok(Zeros)
  {
    FinalObjects();
    var m := S7.mem;
    ReadZeros(m, 0); ReadZeros(m, 1); ReadZeros(m, 2); ReadZeros(m, 3);
    forall x | x in S7.vars && x != "m"
      ensures Contents(S7.mem, S7.vars[x]) == Ok(Zeros)
    {
      assert x == "a" || x == "b" || x == "c" || x == "d";
    }
  }

  lemma ReadZeros(m: Mem, id: nat)
    requires id in m.blocks && m.blocks[id].bytes == Zeros && !m.blocks[id].released
    ensures Read(m, Addr(id), 123) == Ok(Zeros)
  {
    assert Zeros[..123] == Zeros;
  }

  lemma FinalExclusive()
    ensures Exclusive(S7)
  {
    var v := S7.vars;
    assert v.Keys == {"a", "b", "c", "d", "m"};
    assert v["a"].buffer == Addr(0) && v["b"].buffer == Addr(1);
    assert v["c"].buffer == Addr(2) && v["d"].buffer == Addr(3) && v["m"].buffer == Null;
    forall x, y | x in v && y in v && x != y && v[x].buffer.Addr?
      ensures v[x].buffer != v[y].buffer
    {
      assert x == "a" || x == "b" || x == "c" || x == "d";
      assert y == "a" || y == "b" || y == "c" || y == "d" || y == "m";
    }
  }
}

=== FILE: results.dfy ===
/** Failure-compatible wrappers used throughout the model. */
module Results {

  /** The outcome of an operation that either yields a value or hits an error. */
  datatype Result<+T, +E> = Ok(value: T) | Err(error: E) {

    predicate IsFailure() {
      Err?
    }

    function PropagateFailure<U>(): Result<U, E>
      requires Err?
    {
      Err(error)
    }

    function Extract(): T
      requires Ok?
    {
      value
    }
  }
}

=== FILE: vector_object.dfy ===
/**
 `class Vector` of move_semantics/main.cpp as a Dafny class over Dafny's own
 heap, where freshness and aliasing of buffers are stated on references. A
 ghost `HeapLog` records which buffers `new[]` returned and which `delete[]`
 released, since nothing is really deallocated.
 */
module VectorObject {
  import opened Memory

  /** Bookkeeping of `new[]` and `delete[]`; there is no allocator to model. */
  class HeapLog {
    ghost var issued: set<array<Byte>>
    ghost var released: set<array<Byte>>

    constructor()
      ensures issued == {} && released == {}
    {
      issued := {};
      released := {};
    }
  }

  /** `memcpy(dst, src, n)` between two distinct arrays. */
  method CopyBytes(dst: array<Byte>, src: array?<Byte>, n: nat)
    requires n <= dst.Length
    requires n > 0 ==> src != null && n <= src.Length && src != dst
    modifies dst
    ensures forall i :: 0 <= i < n ==> dst[i] == old(src[i])
    ensures forall i :: n <= i < dst.Length ==> dst[i] == old(dst[i])
  {
    var i := 0;
    while i < n
      invariant 0 <= i <= n
      invariant forall k :: 0 <= k < i ==> dst[k] == old(src[k])
      invariant forall k :: n <= k < dst.Length ==> dst[k] == old(dst[k])
      invariant n > 0 ==> forall k :: 0 <= k < src.Length ==> src[k] == old(src[k])
    {
      dst[i] := src[i];
      i := i + 1;
    }
  }

  class Vector {
    var buffer: array?<Byte>   // mBuffer
    var size: nat              // mSize

    /** Copying `size` bytes out of `buffer` is defined. */
    ghost predicate Readable(heap: HeapLog)
      reads this, heap
    {
      size == 0 || (buffer != null && size <= buffer.Length && buffer !in heap.released)
    }

    /** `Vector()` (line 9). */
    constructor Default()
      ensures buffer == null && size == 0
    {
      buffer := null;
      size := 0;
    }

    /** `Vector(buffer, size)` (line 10): the reference is adopted, not copied. */
    constructor Adopt(p: array?<Byte>, n: nat)
      ensures buffer == p && size == n
    {
      buffer := p;
      size := n;
    }

    /** The copy constructor (lines 14-20). */
    constructor CopyOf(other: Vector, heap: HeapLog)
      requires other.Readable(heap)
      modifies heap
      ensures size == other.size
      ensures buffer != null && fresh(buffer) && buffer.Length == size
      ensures forall i :: 0 <= i < size ==> buffer[i] == other.buffer[i]
      ensures heap.issued == old(heap.issued) + {buffer}
      ensures heap.released == old(heap.released)
    {
      var n := other.size;
      var b := new Byte[n];
      CopyBytes(b, other.buffer, n);
      size := n;
      buffer := b;
      new;
      heap.issued := heap.issued + {b};
    }

    /** The copy assignment operator (lines 23-31). There is no
        self-assignment check, so the target must be another object whose
        buffer the source does not share; `delete[]` demands that the old
        buffer came from `new[]` and is still live. */
    method CopyAssign(other: Vector, heap: HeapLog)
      requires other != this
      requires other.Readable(heap)
      requires other.size > 0 ==> other.buffer != buffer
      requires buffer != null ==> buffer in heap.issued && buffer !in heap.released
      modifies this, heap
      ensures size == other.size
      ensures buffer != null && fresh(buffer) && buffer.Length == size
      ensures forall i :: 0 <= i < size ==> buffer[i] == other.buffer[i]
      ensures old(buffer) != null ==> heap.released == old(heap.released) + {old(buffer)}
      ensures old(buffer) == null ==> heap.released == old(heap.released)
      ensures heap.issued == old(heap.issued) + {buffer}
      ensures other.buffer == old(other.buffer) && other.size == old(other.size)
    {
      size := other.size;
      if buffer != null {
        heap.released := heap.released + {buffer};
      }
      var b := new Byte[size];
      buffer := b;
      CopyBytes(b, other.buffer, size);
      heap.issued := heap.issued + {b};
    }

    /** The move constructor (lines 45-53): the buffer reference itself is
        handed over, and the source is emptied. */
    constructor MoveFrom(other: Vector)
      modifies other
      ensures buffer == old(other.buffer) && size == old(other.size)
      ensures other.buffer == null && other.size == 0
    {
      buffer := other.buffer;
      size := other.size;
      new;
      other.buffer := null;
      other.size := 0;
    }

    /** The move assignment operator (lines 56-65). The previous buffer is
        returned as `dropped`: it is neither released nor referenced by
        this object any more. Moving an object into itself empties it. */
    method MoveAssign(other: Vector, heap: HeapLog) returns (ghost dropped: array?<Byte>)
      modifies this, other
      ensures other != this ==> buffer == old(other.buffer) && size == old(other.size)
      ensures other.buffer == null && other.size == 0
      ensures dropped == old(buffer)
      ensures heap.released == old(heap.released)
    {
      dropped := buffer;
      size := other.size;
      buffer := other.buffer;
      other.buffer := null;
      other.size := 0;
    }
  }

  /** Lines 87-94 of `main`, with the object identities they produce. */
  method MainSequence() returns (sArr: array<Byte>, a: Vector, b: Vector, c: Vector, d: Vector, m: Vector)
    ensures a.buffer == sArr && a.size == sArr.Length == 123
    ensures b.buffer != null && c.buffer != null && d.buffer != null
    ensures fresh(b.buffer) && fresh(c.buffer) && fresh(d.buffer)
    ensures b.buffer != c.buffer && b.buffer != d.buffer && c.buffer != d.buffer
    ensures sArr != b.buffer && sArr != c.buffer && sArr != d.buffer
    ensures b.size == c.size == d.size == 123
    ensures b.buffer.Length == c.buffer.Length == d.buffer.Length == 123
    ensures forall i :: 0 <= i < 123 ==> b.buffer[i] == c.buffer[i] == d.buffer[i] == sArr[i] == 0
    ensures m.buffer == null && m.size == 0
  {
    var heap := new HeapLog();
    sArr := new Byte[123](_ => 0);
    a := new Vector.Adopt(sArr, 123);
    b := new Vector.CopyOf(a, heap);
    c := new Vector.CopyOf(b, heap);
    d := new Vector.Default();
    d.CopyAssign(a, heap);
    ghost var copied := d.buffer;
    m := new Vector.MoveFrom(d);
    assert m.buffer == copied;
    ghost var dropped := d.MoveAssign(m, heap);
    assert dropped == null && d.buffer == copied;
  }
}

=== FILE: vector_store.dfy ===
/**
 `class Vector` of move_semantics/main.cpp over an explicit store: a vector
 is the pair of its data members `mBuffer` and `mSize`, and the program's
 objects are named variables. Names are needed because C++ assignment acts
 on objects, and `x = x` differs from `x = y` where `y` merely shares
 `x`'s buffer.
 */
module VectorStore {
  import opened Results
  import opened Memory

  type Name = string

  /** The data members of `class Vector`: `mBuffer` and `mSize`. */
  datatype Vector = Vector(buffer: Ptr, size: nat)

  /** The state a default-constructed or moved-from vector is left in. */
  const Empty: Vector := Vector(Null, 0)

  /** The memory and the live `Vector` objects of a program. */
  datatype State = State(mem: Mem, vars: map<Name, Vector>)

  /** Every vector's buffer is null or a block the program has obtained. */
  predicate WellFormed(s: State) {
    && Memory.Valid(s.mem)
    && forall x :: x in s.vars ==> PointsInto(s.mem, s.vars[x].buffer)
  }

  /** The bytes reachable through `v`: the first `mSize` bytes at `mBuffer`. */
  function Contents(m: Mem, v: Vector): Result<seq<Byte>, Fault> {
    Read(m, v.buffer, v.size)
  }

  /** `Vector x;` (the default constructor, line 9). */
  function DeclareDefault(s: State, x: Name): (r: Result<State, Fault>)
    requires WellFormed(s)
    ensures r.Ok? <==> x !in s.vars
    ensures r.Ok? ==> WellFormed(r.value) && r.value.mem == s.mem
    ensures r.Ok? ==> r.value.vars.Keys == s.vars.Keys + {x}
    ensures r.Ok? ==> forall z :: z in s.vars ==> r.value.vars[z] == s.vars[z]
    ensures r.Ok? ==> r.value.vars[x].buffer.Null? && Contents(r.value.mem, r.value.vars[x]) == Ok([])
  {
    if x in s.vars then Err(NameInUse)
    else Ok(s.(vars := s.vars[x := Empty]))
  }

  /** `Vector x(p, n);` (line 10): adopts `p` and `n` as they are, neither
      allocating nor copying nor checking. The state stays well formed
      exactly when `p` is a pointer the program obtained. */
  function DeclareAdopting(s: State, x: Name, p: Ptr, n: nat): (r: Result<State, Fault>)
    requires WellFormed(s)
    ensures r.Ok? <==> x !in s.vars
    ensures r.Ok? ==> (WellFormed(r.value) <==> PointsInto(s.mem, p)) && r.value.mem == s.mem
    ensures r.Ok? ==> r.value.vars.Keys == s.vars.Keys + {x}
    ensures r.Ok? ==> forall z :: z in s.vars ==> r.value.vars[z] == s.vars[z]
    ensures r.Ok? ==> r.value.vars[x].buffer == p && r.value.vars[x].size == n
  {
    if x in s.vars then Err(NameInUse)
    else
      var s' := s.(vars := s.vars[x := Vector(p, n)]);
      assert x in s'.vars && s'.vars[x].buffer == p;
      Ok(s')
  }

  /** `Vector x(y);` or `Vector x = y;` (the copy constructor, lines 14-20):
      a fresh buffer of `y`'s size receiving `y`'s bytes. */
  function DeclareCopy(s: State, x: Name, y: Name): (r: Result<State, Fault>)
    requires WellFormed(s)
    ensures r.Ok? <==> x !in s.vars && y in s.vars && Contents(s.mem, s.vars[y]).Ok?
    ensures x !in s.vars && y in s.vars && r.Err? ==> r.error == Contents(s.mem, s.vars[y]).error
    ensures r.Ok? ==> WellFormed(r.value)
    ensures r.Ok? ==> r.value.vars.Keys == s.vars.Keys + {x}
    ensures r.Ok? ==> forall z :: z in s.vars ==> r.value.vars[z] == s.vars[z]
    ensures r.Ok? ==>
      var v := r.value.vars[x];
      && v.size == s.vars[y].size
      && v.buffer.Addr? && v.buffer.id !in s.mem.blocks
      && Releasable(r.value.mem, v.buffer)
      && |r.value.mem.blocks[v.buffer.id].bytes| == v.size
      && r.value.mem.blocks.Keys == s.mem.blocks.Keys + {v.buffer.id}
      && Contents(r.value.mem, v) == Contents(s.mem, s.vars[y])
    ensures r.Ok? ==> SameOutside(s.mem, r.value.mem, {})
  {
    if x in s.vars then Err(NameInUse)
    else if y !in s.vars then Err(UnknownName)
    else
      var n := s.vars[y].size;                        // mSize = other.mSize
      var (m1, p) := Alloc(s.mem, n);                  // mBuffer = new Type[mSize]
      ReadFrame(s.mem, m1, {}, s.vars[y].buffer, n);
      var m2 :- Memcpy(m1, p, s.vars[y].buffer, n);    // memcpy(mBuffer, other.mBuffer, mSize)
      Ok(State(m2, s.vars[x := Vector(p, n)]))
  }

  /** `x = y;` (the copy assignment operator, lines 23-31), step by step:
      take `y`'s size, release `x`'s buffer when it is non-null, allocate a
      new one, then copy from whatever buffer `y` has at that point. No
      self-assignment check: see `CopyAssignToSelf` and `CopyAssignShared`. */
  function CopyAssign(s: State, x: Name, y: Name): (r: Result<State, Fault>)
    requires WellFormed(s)
    ensures x !in s.vars || y !in s.vars ==> r == Err(UnknownName)
    ensures x in s.vars && y in s.vars && x != y
            && (s.vars[x].buffer.Null? || s.vars[x].buffer != s.vars[y].buffer) ==>
      (r.Ok? <==> (s.vars[x].buffer.Null? || Releasable(s.mem, s.vars[x].buffer))
                  && Contents(s.mem, s.vars[y]).Ok?)
    ensures r.Ok? ==> WellFormed(r.value)
    ensures r.Ok? ==> r.value.vars.Keys == s.vars.Keys
    ensures r.Ok? ==> forall z :: z in s.vars && z != x ==> r.value.vars[z] == s.vars[z]
    ensures r.Ok? ==>
      var v := r.value.vars[x];
      && v.size == s.vars[y].size
      && v.buffer.Addr? && v.buffer.id !in s.mem.blocks
      && Releasable(r.value.mem, v.buffer)
      && |r.value.mem.blocks[v.buffer.id].bytes| == v.size
      && r.value.mem.blocks.Keys == s.mem.blocks.Keys + {v.buffer.id}
      && Contents(r.value.mem, v) == Contents(s.mem, s.vars[y])
    ensures r.Ok? && s.vars[x].buffer.Addr? ==>
      var prev := s.vars[x].buffer.id;
      && prev in r.value.mem.blocks
      && r.value.mem.blocks[prev] == s.mem.blocks[prev].(released := true)
      && SameOutside(s.mem, r.value.mem, {prev})
    ensures r.Ok? && s.vars[x].buffer.Null? ==> SameOutside(s.mem, r.value.mem, {})
  {
    if x !in s.vars || y !in s.vars then Err(UnknownName)
    else
      var n := s.vars[y].size;                                      // mSize = other.mSize
      var prev := s.vars[x].buffer;
      var m1 :- if prev.Addr? then Free(s.mem, prev) else Ok(s.mem);  // if (mBuffer) delete[] mBuffer
      var (m2, p) := Alloc(m1, n);                                   // mBuffer = new Type[mSize]
      var vars := s.vars[x := Vector(p, n)];
      var ids := if prev.Addr? then {prev.id} else {};
      assert SameOutside(s.mem, m2, ids);
      ReadFrame(s.mem, m2, ids, s.vars[y].buffer, n);
      var m3 :- Memcpy(m2, p, vars[y].buffer, n);                    // memcpy(mBuffer, other.mBuffer, mSize)
      Ok(State(m3, vars))
  }

  /** `Vector x = std::move(y);` (the move constructor, lines 45-53): `x`
      takes over `y`'s buffer and size, and `y` is emptied. */
  function DeclareMove(s: State, x: Name, y: Name): (r: Result<State, Fault>)
    requires WellFormed(s)
    ensures r.Ok? <==> x !in s.vars && y in s.vars
    ensures r.Ok? ==> WellFormed(r.value) && r.value.mem == s.mem
    ensures r.Ok? ==> r.value.vars.Keys == s.vars.Keys + {x}
    ensures r.Ok? ==> forall z :: z in s.vars && z != y ==> r.value.vars[z] == s.vars[z]
    ensures r.Ok? ==> r.value.vars[x] == s.vars[y] && r.value.vars[y] == Empty
    ensures r.Ok? ==> Contents(r.value.mem, r.value.vars[x]) == Contents(s.mem, s.vars[y])
  {
    if x in s.vars then Err(NameInUse)
    else if y !in s.vars then Err(UnknownName)
    else Ok(s.(vars := s.vars[x := s.vars[y]][y := Empty]))
  }

  /** `x = std::move(y);` (the move assignment operator, lines 56-65): the
      same transfer as the move constructor, and `x`'s previous buffer is
      overwritten without `delete[]`. When `x` and `y` are one object the
      last two stores win and the object ends up empty. */
  function MoveAssign(s: State, x: Name, y: Name): (r: Result<State, Fault>)
    requires WellFormed(s)
    ensures r.Ok? <==> x in s.vars && y in s.vars
    ensures r.Ok? ==> WellFormed(r.value) && r.value.mem == s.mem
    ensures r.Ok? ==> r.value.vars.Keys == s.vars.Keys
    ensures r.Ok? ==> forall z :: z in s.vars && z != x && z != y ==> r.value.vars[z] == s.vars[z]
    ensures r.Ok? ==> r.value.vars[y] == Empty
    ensures r.Ok? && x != y ==> r.value.vars[x] == s.vars[y]
    ensures r.Ok? && x != y ==> Contents(r.value.mem, r.value.vars[x]) == Contents(s.mem, s.vars[y])
  {
    if x !in s.vars || y !in s.vars then Err(UnknownName)
    else Ok(s.(vars := s.vars[x := s.vars[y]][y := Empty]))
  }

  /** Copy assignment of an object to itself: the old buffer, if any, is
      released, and the copy then runs from the new buffer onto itself. An
      empty object ends with a new zero-length buffer of its own. */
  lemma CopyAssignToSelf(s: State, x: Name)
    requires WellFormed(s) && x in s.vars
    requires s.vars[x].buffer.Null? || Releasable(s.mem, s.vars[x].buffer)
    ensures s.vars[x].size > 0 ==> CopyAssign(s, x, x) == Err(OverlappingCopy)
    ensures s.vars[x].size == 0 ==>
      var r := CopyAssign(s, x, x);
      && r.Ok?
      && r.value.vars[x].buffer.Addr?
      && r.value.vars[x].buffer != s.vars[x].buffer
      && r.value.vars[x].buffer.id in r.value.mem.blocks
      && |r.value.mem.blocks[r.value.vars[x].buffer.id].bytes| == 0
  {
  }

  /** Copy assignment between two objects sharing one buffer: the target
      releases it, then the copy reads from it. */
  lemma CopyAssignShared(s: State, x: Name, y: Name)
    requires WellFormed(s) && x in s.vars && y in s.vars && x != y
    requires s.vars[x].buffer == s.vars[y].buffer && Releasable(s.mem, s.vars[x].buffer)
    requires s.vars[y].size > 0
    ensures CopyAssign(s, x, y) == Err(UseAfterFree)
  {
  }

  /** A copy never aliases: after a successful copy construction or copy
      assignment no other variable holds the target's buffer. */
  lemma CopyDoesNotAlias(s: State, x: Name, y: Name, assign: bool)
    requires WellFormed(s)
    requires var r := if assign then CopyAssign(s, x, y) else DeclareCopy(s, x, y); r.Ok?
    ensures var r := if assign then CopyAssign(s, x, y) else DeclareCopy(s, x, y);
      forall z :: z in r.value.vars && z != x ==> r.value.vars[z].buffer != r.value.vars[x].buffer
  {
  }

  /** Move assignment drops the target's buffer rather than releasing it:
      when no other variable held it, nothing refers to it afterwards, and
      its block is left exactly as it was, still unreleased if it was live. */
  lemma MoveAssignDrops(s: State, x: Name, y: Name)
    requires WellFormed(s) && x in s.vars && y in s.vars && x != y
    requires s.vars[x].buffer.Addr?
    requires forall z :: z in s.vars && z != x ==> s.vars[z].buffer != s.vars[x].buffer
    ensures var r := MoveAssign(s, x, y);
      && r.Ok?
      && (forall z :: z in r.value.vars ==> r.value.vars[z].buffer != s.vars[x].buffer)
      && r.value.mem.blocks[s.vars[x].buffer.id] == s.mem.blocks[s.vars[x].buffer.id]
  {
  }

  /** Moving `d` into a new `m` and then back restores `d` exactly, leaves
      `m` empty, and touches no memory. */
  lemma MoveRoundTrip(s: State, d: Name, m: Name)
    requires WellFormed(s) && d in s.vars && m !in s.vars
    ensures var r1 := DeclareMove(s, m, d);
      && r1.Ok?
      && var r2 := MoveAssign(r1.value, d, m);
      && r2.Ok?
      && r2.value == State(s.mem, s.vars[m := Empty])
  {
  }
}
